=== FILE: README.md ===
# pgpasswd — a Dafny model

`pgpasswd` reads passwords from standard input, one per line. For each it
prints a PostgreSQL SCRAM-SHA-256 verifier:

    SCRAM-SHA-256$<iterations>:<base64 salt>$<base64 StoredKey>:<base64 ServerKey>

The keys come from the key schedule of section 3 of RFC 5802, with SHA-256
as the hash (RFC 7677):

- SaltedPassword = PBKDF2-HMAC-SHA256(UTF-8(password), salt, iterations, digest_len)
- StoredKey = SHA-256(HMAC(SaltedPassword, "Client Key"))
- ServerKey = HMAC(SaltedPassword, "Server Key")

The salt size, the PBKDF2 key length and the iteration count are options
(`-s`, `-d`, `-i`) checked by `positive_int`.

The project models:

- `pg_scram_sha256` and its inner `b64_encode`, as the pure function
  `Scram.Build` over an explicit salt and abstract hash primitives;
- `positive_int` and the way argparse applies it to the options;
- the strip-and-build loop of `main`, as a map over the input lines.

Modules:

- `Wrappers` and `Octets`: `Option`, `Result`, bytes.
- `Base64`: standard padded Base64 from section 4 of RFC 4648. It has a strict decoder that accepts exactly the canonical encodings.
- `Text`: Python `str` behaviour. The program uses `str(int)` and `str.strip()`. `int(str)` belongs only to the corrected option converter, and `str.split(sep)` only to the parser that reads a verifier back.
- `Utf8`: `str.encode("utf8")` for a string of Unicode scalar values.
- `Scram`: the primitives, the verifier record, its layout, its parser and `Build`.
- `Cli`: `positive_int` as written and as intended, option handling, the per-line loop, and the whole program, as written and as intended.

SHA-256, HMAC-SHA-256 and PBKDF2-HMAC-SHA256 are the fields of a
`Scram.Primitives` value, so every result holds for any functions with the
right output lengths: 32 bytes, 32 bytes and the requested key length.

The server key is an HMAC-SHA-256 output, so it is always 32 bytes
whatever `digest_len` is; only the PBKDF2 key follows `digest_len`. The
messages `b"Client Key"` and `b"Server Key"` are ten bytes each.

## Model

| member | source | states |
|---|---|---|
| Base64.Encode | pgpasswd.py:23-26 | the Base64 text of n bytes has 4·⌈n/3⌉ characters |
| Base64.EncodeAlphabet | pgpasswd.py:23-26 | the encoding uses only `A–Z a–z 0–9 + /`, then exactly (3 − n mod 3) mod 3 trailing `=`, and `=` nowhere else |
| Base64.EncodeHasNoDelimiters | pgpasswd.py:35 | Base64 text contains neither `$` nor `:`, the delimiters of the verifier layout |
| Base64.DecodeEncode | pgpasswd.py:23-26 | decoding the encoding of any bytes gives those bytes back |
| Base64.EncodeDecode | pgpasswd.py:23-26 | any text the strict decoder accepts is the encoding of what it decodes to |
| Base64.DecodeIff | pgpasswd.py:23-26 | text decodes to b if and only if it is the encoding of b |
| Text.Split | pgpasswd.py:35 | `str.split` gives at least one piece, and no piece contains the separator |
| Text.JoinSplit | pgpasswd.py:35 | joining the pieces of a split with the separator gives the text back |
| Text.SplitJoin | pgpasswd.py:35 | splitting the join of separator-free pieces gives exactly those pieces |
| Text.ParseIntToString | pgpasswd.py:35 | the decimal rendering of every integer reads back as that integer |
| Text.IntToString | pgpasswd.py:35 | `str(n)` is one or more decimal digits without leading zeros (only 0 itself starts with `0`), after a `-` exactly when n is negative; `-` is always followed by a non-zero digit |
| Text.Strip | pgpasswd.py:67 | `line.strip()` is the line with only whitespace taken off its front and its back, and it neither starts nor ends with whitespace |
| Text.StripPadded | pgpasswd.py:67 | stripping a text with no whitespace at its ends, padded with whitespace on either side, gives exactly that text |
| Text.TrimPadded | pgpasswd.py:67 | the same for trimming any set of characters, which `Text.Strip` instantiates with Python's whitespace |
| Text.StripIdempotent | pgpasswd.py:67 | stripping twice is stripping once |
| Text.ParseIntRefusesLead | pgpasswd.py:41-48 | once the whitespace `int()` skips is removed, text that starts with neither a sign nor a digit is refused, as `int()` refuses it; this is used by the corrected converter only |
| Utf8.EncodeChar | pgpasswd.py:30 | each character encodes to 1–4 bytes, and the lead byte announces the sequence length |
| Utf8.Encode | pgpasswd.py:30 | `passwd.encode("utf8")` takes one to four bytes per character |
| Utf8.DecodeEncodeChar | pgpasswd.py:30 | each character's UTF-8 bytes decode back to its code point |
| Utf8.EncodeInjective | pgpasswd.py:30 | different passwords give different PBKDF2 password bytes |
| Scram.KeyMessages | pgpasswd.py:31-33 | the HMAC messages are the ten ASCII bytes of `Client Key` and `Server Key` |
| Scram.Format | pgpasswd.py:35 | the f-string has the 13-character mechanism name, four delimiters, the count's digits and 4·⌈n/3⌉ characters for each of salt, StoredKey and ServerKey |
| Scram.ParseFormat | pgpasswd.py:35 | every verifier record, whatever the lengths of its salt and keys, is parsed back from its layout exactly |
| Scram.FormatParse | pgpasswd.py:35 | text that parses to a record is that record's layout |
| Scram.ParseIff | pgpasswd.py:35 | text parses to a record if and only if it is that record's layout |
| Scram.Build | pgpasswd.py:20-35 | fails exactly when the iteration count or key length is below 1, with hashlib's ValueError. Otherwise the text parses to the given iteration count, the given salt, StoredKey = SHA-256(HMAC(K, "Client Key")) and ServerKey = HMAC(K, "Server Key"), where K = PBKDF2(UTF-8(password), salt, iterations, digest_len) |
| Scram.BuildFields | pgpasswd.py:23-35 | splitting the text on `$` gives three fields and the last two on `:` two parts each. The parts are the mechanism name, the decimal count, the Base64 salt, and two Base64 keys that decode to 32 bytes each whatever digest_len is |
| Scram.BuildIsFormat | pgpasswd.py:28-35 | the text is the layout of a record with the given count and salt and two 32-byte keys |
| Scram.BuildPrefix | pgpasswd.py:35 | the text starts with `SCRAM-SHA-256$`, then the decimal count, then `:` |
| Scram.FormatLength | pgpasswd.py:35 | a layout with 32-byte keys has 105 + the count's digits + 4·⌈\|salt\|/3⌉ characters |
| Scram.BuildLength | pgpasswd.py:23-35 | the text has 105 + the count's digits + 4·⌈salt_size/3⌉ characters |
| Scram.BuildDeterminesSalt | pgpasswd.py:28-35 | equal texts were built with the same iteration count and the same salt |
| Scram.BuildDeterministic | pgpasswd.py:28-35 | the text depends only on password, salt, count, key length and the primitives' values at the four applications the key schedule makes: PBKDF2 once, HMAC-SHA-256 twice and SHA-256 once |
| Cli.PositiveInt | pgpasswd.py:41-48 | returns its argument unchanged exactly when it is an `int` (`True` included) above 0. Otherwise it fails with ArgumentTypeError "not a positive integer": for 0, negatives, `False`, strings and anything else |
| Cli.OptionAsWritten | pgpasswd.py:58-60 | an option is accepted exactly when it is absent from the command line |
| Cli.ParseArgsAsWritten | pgpasswd.py:58-62 | option parsing succeeds if and only if no option is given, and then yields 16, 32 and 4096. Any explicit value gives "not a positive integer" |
| Cli.SaltSizeEightRefused | pgpasswd.py:58 | `-s 8` is refused |
| Cli.PositiveIntArg | pgpasswd.py:41-48 | intended converter: removes the whitespace `int()` skips, then accepts exactly an optional sign and ASCII digits whose value is above 0, and returns that number |
| Cli.PositiveIntArgPadded | pgpasswd.py:41-48 | intended converter: the decimal text of any n > 0, with any whitespace `int()` skips before or after it, is read as n |
| Cli.PositiveIntArgSpaces | pgpasswd.py:41-48 | intended converter: ` 8` followed by a newline is read as 8 |
| Cli.PositiveIntArgSeparator | pgpasswd.py:41-48 | intended converter: U+001C followed by `8` is refused, as `int()` refuses it |
| Cli.PositiveIntArgOfDecimal | pgpasswd.py:41-48 | intended converter: the decimal text of n is accepted, as n, if and only if n > 0 |
| Cli.ConvertOption | pgpasswd.py:58-60 | intended converter: an absent option takes its default |
| Cli.ParseArgs | pgpasswd.py:58-62 | intended parsing: succeeds exactly when every given option converts; then each option is its converted text, or 16, 32 and 4096 when absent; any failure is "not a positive integer" |
| Cli.ParseArgsDecimal | pgpasswd.py:58-62 | intended parsing: decimal values for all three options are accepted exactly when all are positive, and are taken as given |
| Cli.Run | pgpasswd.py:64-72 | one output per input line, in input order. Output k is `Build` of line k stripped, with the configured count and key length and the k-th urandom draw of salt_size bytes as salt |
| Cli.RunRecords | pgpasswd.py:64-72 | output k parses back to the configured iteration count, the salt drawn for line k, of exactly salt_size bytes, and two 32-byte keys |
| Cli.LinePassword | pgpasswd.py:64-67 | a line read with its newline gives the password without it |
| Cli.Pgpasswd | pgpasswd.py:62-72 | the program as written fails, with "not a positive integer", exactly when some option is given. Otherwise it prints `Run` over the lines with the defaults 16, 32 and 4096, which `Settings` passes on as pgpasswd.py:68-70 do |
| Cli.PgpasswdRecords | pgpasswd.py:58-72 | every verifier the program prints parses to 4096 iterations, the 16 bytes drawn for its line as salt, and two 32-byte keys |
| Cli.PgpasswdIntended | pgpasswd.py:62-72 | intended program: it fails, with "not a positive integer", exactly when the intended option parsing fails. Otherwise it prints `Run` over the lines with the parsed settings, one verifier per line |
| Cli.PgpasswdIntendedDecimal | pgpasswd.py:58-72 | intended program: with decimal options it runs exactly when all three are positive, and then prints `Run` with those settings |

## Left out

- SHA-256, HMAC-SHA-256 and PBKDF2-HMAC-SHA256 internals: library code. They are modelled as arbitrary functions with their output lengths only, so the example verifier of RFC 7677 is not reproduced.
- `os.urandom`: an entropy source. `Scram.Build` takes the salt as a parameter, and `Cli.Run` takes the draws as a function of (call number, size).
- Reading standard input, `print`, argparse's help, version and usage text, the author metadata and the `KeyboardInterrupt` suppression: I/O and command-line plumbing.
- Scram.Build: the overflow error that hashlib raises when the iteration count or key length exceeds a C `int` is not modelled, nor is PBKDF2's upper bound on the key length. Only the non-positive cases fail.
- Text.ParseInt: `int()` also accepts underscores between digits and non-ASCII decimal digits. Only an optional sign and ASCII digits are modelled, and so `Cli.PositiveIntArg` is narrower in the same way.
- Cli.PositiveIntArg: the model accepts decimal text of any length. CPython 3.11 and later (and the 3.7.14, 3.8.14, 3.9.14 and 3.10.7 security releases) refuse `int()` of more than 4300 digits by default, so text that long is accepted here but refused there.
- Text.IntToString: Python's limit of 4300 digits on integer-to-string conversion is not modelled.
- Cli.ParseArgsAsWritten: argparse's order of processing, its handling of repeated options, and its error message text and exit status are not modelled. An error is the converter's ArgumentTypeError.
- Utf8.Encode: strings are sequences of Unicode scalar values, so lone surrogates cannot be represented. Python can hold them, for example when standard input is decoded with `surrogateescape`, and then `passwd.encode("utf8")` raises `UnicodeEncodeError`; that error is not modelled.

## Findings

| source | as written | input that shows it | evidently intended | confidence | as-written member | corrected member |
|---|---|---|---|---|---|---|
| pgpasswd.py:44 | `positive_int` refuses anything that is not an `int`. argparse hands a `type=` converter the raw command-line string, so every explicit `-s`, `-d` or `-i` is refused. | `pgpasswd -s 8` | convert the text with `int()`, then refuse values that are not above 0 | not executed | Cli.SaltSizeEightRefused | Cli.PositiveIntArgOfDecimal |

=== FILE: base64.dfy ===
/**
 * Padded standard Base64 (section 4 of RFC 4648): the encoder that
 * `b64_encode` uses for the salt and the two keys, and a strict decoder
 * that inverts it exactly.
 */
module Base64 {
  import opened Wrappers
  import opened Octets

  /** The value of one Base64 character. */
  type Sextet = x: int | 0 <= x < 64

  /** The 64 characters of the standard alphabet (the pad `=` is not one of them). */
  predicate IsAlphabet(c: char) {
    ('A' <= c <= 'Z') || ('a' <= c <= 'z') || ('0' <= c <= '9') || c == '+' || c == '/'
  }

  function Char(x: Sextet): (c: char)
    ensures IsAlphabet(c)
  {
    if x < 26 then ('A' as int + x) as char
    else if x < 52 then ('a' as int + (x - 26)) as char
    else if x < 62 then ('0' as int + (x - 52)) as char
    else if x == 62 then '+'
    else '/'
  }

  function Value(c: char): (x: Sextet)
    requires IsAlphabet(c)
    ensures Char(x) == c
  {
    if 'A' <= c <= 'Z' then c as int - 'A' as int
    else if 'a' <= c <= 'z' then c as int - 'a' as int + 26
    else if '0' <= c <= '9' then c as int - '0' as int + 52
    else if c == '+' then 62
    else 63
  }

  lemma ValueOfChar(x: Sextet)
    ensures Value(Char(x)) == x
  {
  }

  /** The four characters of the 24 bits `a`, `b`, `c`, six bits at a time, most significant first. */
  function Quad(a: byte, b: byte, c: byte): (q: string)
    ensures |q| == 4 && forall k :: 0 <= k < 4 ==> IsAlphabet(q[k])
  {
    [Char(a / 4), Char(a % 4 * 16 + b / 16), Char(b % 16 * 4 + c / 64), Char(c % 64)]
  }

  /** The three bytes held by four sextets. */
  function Triple(x0: Sextet, x1: Sextet, x2: Sextet, x3: Sextet): (t: Bytes)
    ensures |t| == 3
  {
    [x0 * 4 + x1 / 16, x1 % 16 * 16 + x2 / 4, x2 % 4 * 64 + x3]
  }

  /** Splitting three bytes into sextets and joining them again gives the bytes back. */
  lemma BytesSextetsBytes(a: byte, b: byte, c: byte)
    ensures var x0, x1, x2, x3 := a / 4, a % 4 * 16 + b / 16, b % 16 * 4 + c / 64, c % 64;
      x0 * 4 + x1 / 16 == a && x1 % 16 * 16 + x2 / 4 == b && x2 % 4 * 64 + x3 == c
  {
  }

  /** Joining four sextets into bytes and splitting them again gives the sextets back. */
  lemma SextetsBytesSextets(x0: Sextet, x1: Sextet, x2: Sextet, x3: Sextet)
    ensures var a, b, c := x0 * 4 + x1 / 16, x1 % 16 * 16 + x2 / 4, x2 % 4 * 64 + x3;
      && 0 <= a < 256 && 0 <= b < 256 && 0 <= c < 256
      && a / 4 == x0 && a % 4 * 16 + b / 16 == x1 && b % 16 * 4 + c / 64 == x2 && c % 64 == x3
  {
  }

  lemma TripleOfQuad(a: byte, b: byte, c: byte)
    ensures var q := Quad(a, b, c);
      Triple(Value(q[0]), Value(q[1]), Value(q[2]), Value(q[3])) == [a, b, c]
  {
    var x0, x1, x2, x3 := a / 4, a % 4 * 16 + b / 16, b % 16 * 4 + c / 64, c % 64;
    ValueOfChar(x0);
    ValueOfChar(x1);
    ValueOfChar(x2);
    ValueOfChar(x3);
    BytesSextetsBytes(a, b, c);
    assert Triple(x0, x1, x2, x3) == [a, b, c];
  }

  lemma QuadOfTriple(x0: Sextet, x1: Sextet, x2: Sextet, x3: Sextet)
    ensures var t := Triple(x0, x1, x2, x3);
      Quad(t[0], t[1], t[2]) == [Char(x0), Char(x1), Char(x2), Char(x3)]
  {
    var t := Triple(x0, x1, x2, x3);
    var a, b, c := t[0], t[1], t[2];
    SextetsBytesSextets(x0, x1, x2, x3);
    assert a / 4 == x0 && a % 4 * 16 + b / 16 == x1 && b % 16 * 4 + c / 64 == x2 && c % 64 == x3;
  }

  /** Number of `=` characters that close the encoding of `n` bytes. */
  function PadLength(n: nat): (pad: nat) {
    (3 - n % 3) % 3
  }

  /**
   * Each group of three bytes becomes four characters; a final group of
   * one or two bytes is filled up with zero bits and its last characters
   * are replaced by `==` or `=`.
   */
  function Encode(b: Bytes): (s: string)
    ensures |s| == 4 * ((|b| + 2) / 3)
    decreases |b|
  {
    if |b| == 0 then []
    else if |b| == 1 then Quad(b[0], 0, 0)[..2] + "=="
    else if |b| == 2 then Quad(b[0], b[1], 0)[..3] + "="
    else
      assert (|b| + 2) / 3 == (|b[3..]| + 2) / 3 + 1;
      Quad(b[0], b[1], b[2]) + Encode(b[3..])
  }

  /** The bytes of a group of four alphabet characters. */
  function DecodeGroup(q: string): (r: Option<Bytes>)
    requires |q| == 4
  {
    if IsAlphabet(q[0]) && IsAlphabet(q[1]) && IsAlphabet(q[2]) && IsAlphabet(q[3])
    then Some(Triple(Value(q[0]), Value(q[1]), Value(q[2]), Value(q[3])))
    else None
  }

  /** The bytes of the last group, which may end in `==` or `=` over zero bits. */
  function DecodeLastGroup(q: string): (r: Option<Bytes>)
    requires |q| == 4
  {
    if !IsAlphabet(q[0]) || !IsAlphabet(q[1]) then None
    else if q[2] == '=' && q[3] == '=' then
      if Value(q[1]) % 16 == 0 then Some(Triple(Value(q[0]), Value(q[1]), 0, 0)[..1]) else None
    else if IsAlphabet(q[2]) && q[3] == '=' then
      if Value(q[2]) % 4 == 0 then Some(Triple(Value(q[0]), Value(q[1]), Value(q[2]), 0)[..2]) else None
    else DecodeGroup(q)
  }

  /**
   * Decodes padded Base64. It refuses a length that is not a multiple of
   * four, a character outside the alphabet, padding anywhere but at the
   * very end, and non-zero bits under the padding, so that only the
   * canonical encoding of a byte string is accepted.
   */
  function Decode(s: string): (r: Option<Bytes>)
    decreases |s|
  {
    if |s| == 0 then Some([])
    else if |s| < 4 then None
    else if |s| == 4 then DecodeLastGroup(s)
    else
      match (DecodeGroup(s[..4]), Decode(s[4..]))
      case (Some(g), Some(rest)) => Some(g + rest)
      case _ => None
  }

  /** `s` is alphabet characters followed by exactly `pad` pad characters. */
  predicate PaddedText(s: string, pad: nat) {
    forall k :: 0 <= k < |s| ==> (s[k] == '=' <==> k >= |s| - pad) && (s[k] != '=' ==> IsAlphabet(s[k]))
  }

  /** The encoding of `b` uses only alphabet characters, followed by exactly `PadLength(|b|)` pad characters. */
  lemma {:induction false} EncodeAlphabet(b: Bytes)
    ensures PaddedText(Encode(b), PadLength(|b|))
    decreases |b|
  {
    if |b| >= 3 {
      EncodeAlphabet(b[3..]);
      EncodeAlphabetStep(b);
    } else if |b| == 1 {
      EncodeOneAlphabet(b);
    } else if |b| == 2 {
      EncodeTwoAlphabet(b);
    }
  }

  /** A full group in front keeps the padding of the rest. */
  lemma EncodeAlphabetStep(b: Bytes)
    requires |b| >= 3 && PaddedText(Encode(b[3..]), PadLength(|b[3..]|))
    ensures PaddedText(Encode(b), PadLength(|b|))
  {
    PadLengthStep(|b|);
    EncodeCons(b);
    PaddedAfterGroup(Quad(b[0], b[1], b[2]), Encode(b[3..]), PadLength(|b|));
  }

  lemma PadLengthStep(n: nat)
    requires n >= 3
    ensures PadLength(n) == PadLength(n - 3)
  {
    assert n % 3 == (n - 3) % 3;
  }

  /** One byte encodes as two alphabet characters and two pads. */
  lemma EncodeOneAlphabet(b: Bytes)
    requires |b| == 1
    ensures PaddedText(Encode(b), 2)
  {
    EncodeOneChars(b);
    PaddedPair(Char(b[0] / 4), Char(16 * (b[0] % 4)));
  }

  /** Two bytes encode as three alphabet characters and one pad. */
  lemma EncodeTwoAlphabet(b: Bytes)
    requires |b| == 2
    ensures PaddedText(Encode(b), 1)
  {
    EncodeTwoChars(b);
    PaddedTriple(Char(b[0] / 4), Char(b[0] % 4 * 16 + b[1] / 16), Char(4 * (b[1] % 16)));
  }

  lemma PaddedPair(c0: char, c1: char)
    requires IsAlphabet(c0) && IsAlphabet(c1)
    ensures PaddedText([c0, c1, '=', '='], 2)
  {
  }

  lemma PaddedTriple(c0: char, c1: char, c2: char)
    requires IsAlphabet(c0) && IsAlphabet(c1) && IsAlphabet(c2)
    ensures PaddedText([c0, c1, c2, '='], 1)
  {
  }

  /** Four alphabet characters in front of padded text leave it padded the same way. */
  lemma PaddedAfterGroup(q: string, t: string, pad: nat)
    requires |q| == 4 && forall k :: 0 <= k < 4 ==> IsAlphabet(q[k])
    requires PaddedText(t, pad) && pad <= |t|
    ensures PaddedText(q + t, pad)
  {
    var s := q + t;
    forall k | 0 <= k < |s|
      ensures (s[k] == '=' <==> k >= |s| - pad) && (s[k] != '=' ==> IsAlphabet(s[k]))
    {
      if k >= 4 {
        assert s[k] == t[k - 4];
      } else {
        assert s[k] == q[k];
      }
    }
  }

  /** Base64 text never contains the verifier's delimiters. */
  lemma EncodeHasNoDelimiters(b: Bytes)
    ensures '$' !in Encode(b) && ':' !in Encode(b)
  {
    EncodeAlphabet(b);
  }

  lemma DecodeQuad(a: byte, b: byte, c: byte)
    ensures DecodeGroup(Quad(a, b, c)) == Some([a, b, c])
    ensures DecodeLastGroup(Quad(a, b, c)) == Some([a, b, c])
  {
    TripleOfQuad(a, b, c);
  }

  /** A last group with two pad characters, over a sextet whose low four bits are zero. */
  lemma DecodeLastPadTwo(x0: Sextet, y: int)
    requires 0 <= y < 4
    ensures DecodeLastGroup([Char(x0), Char(16 * y), '=', '=']) == Some(Triple(x0, 16 * y, 0, 0)[..1])
  {
    ValueOfChar(x0);
    ValueOfChar(16 * y);
  }

  /** A last group with one pad character, over a sextet whose low two bits are zero. */
  lemma DecodeLastPadOne(x0: Sextet, x1: Sextet, y: int)
    requires 0 <= y < 16
    ensures DecodeLastGroup([Char(x0), Char(x1), Char(4 * y), '=']) == Some(Triple(x0, x1, 4 * y, 0)[..2])
  {
    ValueOfChar(x0);
    ValueOfChar(x1);
    ValueOfChar(4 * y);
  }

  /** The characters of one byte: two sextets, the second with four zero bits, and two pads. */
  lemma EncodeOneChars(b: Bytes)
    requires |b| == 1
    ensures Encode(b) == [Char(b[0] / 4), Char(16 * (b[0] % 4)), '=', '=']
  {
    var q := Quad(b[0], 0, 0);
    assert b[0] % 4 * 16 + 0 / 16 == 16 * (b[0] % 4);
    assert Encode(b) == q[..2] + "==";
  }

  /** The characters of two bytes: three sextets, the third with two zero bits, and one pad. */
  lemma EncodeTwoChars(b: Bytes)
    requires |b| == 2
    ensures Encode(b) == [Char(b[0] / 4), Char(b[0] % 4 * 16 + b[1] / 16), Char(4 * (b[1] % 16)), '=']
  {
    var q := Quad(b[0], b[1], 0);
    assert b[1] % 16 * 4 + 0 / 64 == 4 * (b[1] % 16);
    assert Encode(b) == q[..3] + "=";
  }

  /** The byte arithmetic behind one byte surviving its sextets. */
  lemma OneByteArith(a: byte)
    ensures a / 4 * 4 + 16 * (a % 4) / 16 == a
  {
  }

  /** The byte arithmetic behind two bytes surviving their sextets. */
  lemma TwoBytesArith(a: byte, b: byte)
    ensures a / 4 * 4 + (a % 4 * 16 + b / 16) / 16 == a
    ensures (a % 4 * 16 + b / 16) % 16 * 16 + 4 * (b % 16) / 4 == b
  {
  }

  /** One byte survives its sextets. */
  lemma OneByteSextets(b: Bytes)
    requires |b| == 1
    ensures Triple(b[0] / 4, 16 * (b[0] % 4), 0, 0)[..1] == b
  {
    OneByteArith(b[0]);
  }

  /** Two bytes survive their sextets. */
  lemma TwoBytesSextets(b: Bytes)
    requires |b| == 2
    ensures Triple(b[0] / 4, b[0] % 4 * 16 + b[1] / 16, 4 * (b[1] % 16), 0)[..2] == b
  {
    TwoBytesArith(b[0], b[1]);
    var t := Triple(b[0] / 4, b[0] % 4 * 16 + b[1] / 16, 4 * (b[1] % 16), 0);
    assert t[0] == b[0] && t[1] == b[1];
  }

  lemma DecodeEncodeOne(b: Bytes)
    requires |b| == 1
    ensures Decode(Encode(b)) == Some(b)
  {
    var x0, y := b[0] / 4, b[0] % 4;
    EncodeOneChars(b);
    DecodeLastPadTwo(x0, y);
    OneByteSextets(b);
  }

  lemma DecodeEncodeTwo(b: Bytes)
    requires |b| == 2
    ensures Decode(Encode(b)) == Some(b)
  {
    var x0, x1, y := b[0] / 4, b[0] % 4 * 16 + b[1] / 16, b[1] % 16;
    EncodeTwoChars(b);
    DecodeLastPadOne(x0, x1, y);
    TwoBytesSextets(b);
  }

  /** The decoding of the encoding of three bytes or more starts with the group of the first three. */
  lemma EncodeFirstGroup(b: Bytes)
    requires |b| >= 3
    ensures Decode(Encode(b)) == Decode(Quad(b[0], b[1], b[2]) + Encode(b[3..]))
  {
  }

  /** Exactly three bytes encode as one group without padding. */
  lemma EncodeExactGroup(b: Bytes)
    requires |b| == 3
    ensures Encode(b) == Quad(b[0], b[1], b[2])
  {
    EncodeCons(b);
    assert Encode(b[3..]) == [];
  }

  /** The three bytes of a group, as a sequence. */
  lemma ThreeBytes(b: Bytes)
    requires |b| == 3
    ensures [b[0], b[1], b[2]] == b
  {
  }

  lemma DecodeEncodeThree(b: Bytes)
    requires |b| == 3
    ensures Decode(Encode(b)) == Some(b)
  {
    EncodeExactGroup(b);
    DecodeQuad(b[0], b[1], b[2]);
    ThreeBytes(b);
  }

  /** A full group in front of more text decodes on its own. */
  lemma DecodeCons(q: string, t: string, b: Bytes)
    requires |q| == 4 && |t| > 0 && |b| >= 3
    requires DecodeGroup(q) == Some(b[..3]) && Decode(t) == Some(b[3..])
    ensures Decode(q + t) == Some(b)
  {
    var s := q + t;
    assert s[..4] == q && s[4..] == t;
    assert b[..3] + b[3..] == b;
  }

  lemma DecodeEncodeStep(b: Bytes)
    requires |b| > 3 && Decode(Encode(b[3..])) == Some(b[3..])
    ensures Decode(Encode(b)) == Some(b)
  {
    var q := Quad(b[0], b[1], b[2]);
    EncodeFirstGroup(b);
    DecodeFirstGroup(b);
    DecodeCons(q, Encode(b[3..]), b);
  }

  lemma DecodeFirstGroup(b: Bytes)
    requires |b| >= 3
    ensures DecodeGroup(Quad(b[0], b[1], b[2])) == Some(b[..3])
  {
    DecodeQuad(b[0], b[1], b[2]);
    ThreeBytes(b[..3]);
  }

  lemma {:induction false} DecodeEncode(b: Bytes)
    ensures Decode(Encode(b)) == Some(b)
    decreases |b|
  {
    if |b| == 1 {
      DecodeEncodeOne(b);
    } else if |b| == 2 {
      DecodeEncodeTwo(b);
    } else if |b| == 3 {
      DecodeEncodeThree(b);
    } else if |b| > 3 {
      DecodeEncode(b[3..]);
      DecodeEncodeStep(b);
    }
  }

  lemma EncodeDecodeLast(q: string, b: Bytes)
    requires |q| == 4 && DecodeLastGroup(q) == Some(b)
    ensures Encode(b) == q
  {
    if q[2] == '=' && q[3] == '=' {
      EncodeDecodePadTwo(q, b);
    } else if IsAlphabet(q[2]) && q[3] == '=' {
      EncodeDecodePadOne(q, b);
    } else {
      EncodeDecodeFull(q, b);
    }
  }

  /** A last group with two pad characters is the encoding of its one byte. */
  lemma EncodeDecodePadTwo(q: string, b: Bytes)
    requires |q| == 4 && DecodeLastGroup(q) == Some(b) && q[2] == '=' && q[3] == '='
    ensures Encode(b) == q
  {
    QuadOfTriple(Value(q[0]), Value(q[1]), 0, 0);
    assert Encode(b) == Quad(b[0], 0, 0)[..2] + "==";
  }

  /** A last group with one pad character is the encoding of its two bytes. */
  lemma EncodeDecodePadOne(q: string, b: Bytes)
    requires |q| == 4 && DecodeLastGroup(q) == Some(b) && q[2] != '=' && q[3] == '='
    ensures Encode(b) == q
  {
    QuadOfTriple(Value(q[0]), Value(q[1]), Value(q[2]), 0);
    assert Encode(b) == Quad(b[0], b[1], 0)[..3] + "=";
  }

  /** A last group without padding is the encoding of its three bytes. */
  lemma EncodeDecodeFull(q: string, b: Bytes)
    requires |q| == 4 && DecodeGroup(q) == Some(b)
    ensures Encode(b) == q
  {
    GroupOfDecode(q, b);
    EncodeExactGroup(b);
  }

  lemma {:induction false} EncodeDecode(s: string, b: Bytes)
    requires Decode(s) == Some(b)
    ensures Encode(b) == s
    decreases |s|
  {
    if |s| == 4 {
      EncodeDecodeLast(s, b);
    } else if |s| > 4 {
      var g, rest := DecodeGroup(s[..4]).value, Decode(s[4..]).value;
      EncodeDecode(s[4..], rest);
      EncodeDecodeGroup(s, g, rest, b);
    }
  }

  /** A full group in front of the encoding of `rest` is the encoding of its bytes followed by `rest`. */
  lemma EncodeDecodeGroup(s: string, g: Bytes, rest: Bytes, b: Bytes)
    requires |s| > 4 && DecodeGroup(s[..4]) == Some(g) && Encode(rest) == s[4..] && b == g + rest
    ensures Encode(b) == s
  {
    var q := s[..4];
    GroupOfDecode(q, g);
    assert |rest| > 0;
    assert b[0] == g[0] && b[1] == g[1] && b[2] == g[2] && b[3..] == rest;
    EncodeCons(b);
    assert s == q + s[4..];
  }

  /** A group that decodes to `g` is the encoding of `g`'s three bytes. */
  lemma GroupOfDecode(q: string, g: Bytes)
    requires |q| == 4 && DecodeGroup(q) == Some(g)
    ensures |g| == 3 && Quad(g[0], g[1], g[2]) == q
  {
    QuadOfTriple(Value(q[0]), Value(q[1]), Value(q[2]), Value(q[3]));
    assert q == [q[0], q[1], q[2], q[3]];
  }

  /** Three bytes or more encode as the group of the first three, then the rest. */
  lemma EncodeCons(b: Bytes)
    requires |b| >= 3
    ensures Encode(b) == Quad(b[0], b[1], b[2]) + Encode(b[3..])
  {
    assert |b| != 0 && |b| != 1 && |b| != 2;
  }

  /** The decoder accepts exactly the encodings: `s` decodes to `b` if and only if `s` is the encoding of `b`. */
  lemma DecodeIff(s: string, b: Bytes)
    ensures Decode(s) == Some(b) <==> Encode(b) == s
  {
    if Decode(s) == Some(b) {
      EncodeDecode(s, b);
    }
    if Encode(b) == s {
      DecodeEncode(b);
    }
  }
}

=== FILE: cli.dfy ===
/**
 * The driver in `main` (pgpasswd.py:38-72): the `positive_int` converter,
 * how argparse applies it to the three options, and the loop that turns
 * every line of standard input into one verifier.
 */
module Cli {
  import opened Wrappers
  import opened Octets
  import opened Text
  import Scram

  // ------------------------------------------------- positive_int as written

  /** The Python values a converter can be handed; `bool` is a subclass of `int`. */
  datatype PyValue = Int(i: int) | Bool(b: bool) | Str(s: string) | Other

  /** argparse's `ArgumentTypeError`. */
  datatype ArgumentTypeError = ArgumentTypeError(message: string)

  /** `isinstance(v, int)`. */
  predicate IsInstanceInt(v: PyValue) {
    v.Int? || v.Bool?
  }

  /** The integer an `int` instance stands for (`True` is 1, `False` is 0). */
  function IntValue(v: PyValue): (n: int)
    requires IsInstanceInt(v)
  {
    if v.Int? then v.i else if v.b then 1 else 0
  }

  /**
   * `positive_int` (pgpasswd.py:41-48): its argument back when it is an
   * `int` above zero, `ArgumentTypeError` for anything else, a string of
   * digits included.
   */
  function PositiveInt(v: PyValue): (r: Result<PyValue, ArgumentTypeError>)
    ensures r.Ok? <==> (v.Int? && v.i > 0) || v == Bool(true)
    ensures r.Ok? ==> r.value == v
    ensures r.Err? ==> r.error == ArgumentTypeError("not a positive integer")
  {
    if !IsInstanceInt(v) || IntValue(v) <= 0 then Err(ArgumentTypeError("not a positive integer"))
    else Ok(v)
  }

  /** The text given on the command line for `-s`, `-d` and `-i`, when given. */
  datatype Args = Args(saltSize: Option<string>, digestLen: Option<string>, iterations: Option<string>)

  /** The option values argparse hands to `main`, as Python values. */
  datatype Namespace = Namespace(saltSize: PyValue, digestLen: PyValue, iterations: PyValue)

  /**
   * argparse with `type=positive_int` (pgpasswd.py:58-60): a value given on
   * the command line reaches the converter as the raw `str`; an absent
   * option keeps its `int` default, which is not converted.
   */
  function OptionAsWritten(given: Option<string>, default: int): (r: Result<PyValue, ArgumentTypeError>)
    ensures r.Ok? <==> given.None?
  {
    match given
    case None => Ok(Int(default))
    case Some(text) => PositiveInt(Str(text))
  }

  /**
   * `args_parser.parse_args()` (pgpasswd.py:62) as the program is written.
   * Every option given on the command line is refused, so the only
   * configuration that ever reaches the builder is the defaults.
   */
  function ParseArgsAsWritten(a: Args): (r: Result<Namespace, ArgumentTypeError>)
    ensures r.Ok? <==> a == Args(None, None, None)
    ensures r.Ok? ==> r.value == Namespace(Int(16), Int(32), Int(4096))
    ensures r.Err? ==> r.error == ArgumentTypeError("not a positive integer")
  {
    match (OptionAsWritten(a.saltSize, 16), OptionAsWritten(a.digestLen, 32), OptionAsWritten(a.iterations, 4096))
    case (Ok(s), Ok(d), Ok(i)) => Ok(Namespace(s, d, i))
    case (Err(e), _, _) => Err(e)
    case (_, Err(e), _) => Err(e)
    case (_, _, Err(e)) => Err(e)
  }

  /** `pgpasswd -s 8` is refused, although 8 is a positive integer. */
  lemma SaltSizeEightRefused()
    ensures ParseArgsAsWritten(Args(Some("8"), None, None)) == Err(ArgumentTypeError("not a positive integer"))
  {
  }

  // --------------------------------------------- positive_int as intended

  type Positive = n: int | n > 0 witness 1

  /**
   * The converter as evidently intended: the option's text read as
   * `int(text)` would read it, then refused unless above zero.
   */
  function PositiveIntArg(text: string): (r: Result<Positive, ArgumentTypeError>)
    ensures var n := ParseInt(Trim(text, IsIntSpace));
      r.Ok? <==> n.Some? && n.value > 0
    ensures r.Ok? ==> Some(r.value as int) == ParseInt(Trim(text, IsIntSpace))
  {
    match ParseInt(Trim(text, IsIntSpace))
    case Some(n) => if n > 0 then Ok(n) else Err(ArgumentTypeError("not a positive integer"))
    case None => Err(ArgumentTypeError("not a positive integer"))
  }

  /** The decimal text of `n` is accepted exactly when `n` is positive, and yields `n`. */
  lemma PositiveIntArgOfDecimal(n: int)
    ensures PositiveIntArg(IntToString(n)) == if n > 0 then Ok(n) else Err(ArgumentTypeError("not a positive integer"))
  {
    var s := IntToString(n);
    assert Trimmed(s, IsIntSpace) by {
      assert s[0] == '-' || IsDigit(s[0]);
      assert IsDigit(s[|s| - 1]);
    }
    TrimPadded("", s, "", IsIntSpace);
    assert "" + s + "" == s;
    ParseIntToString(n);
  }

  /** Any positive number's decimal text, with whitespace `int()` skips around it, is read as that number. */
  lemma PositiveIntArgPadded(lead: string, n: int, trail: string)
    requires All(lead, IsIntSpace) && All(trail, IsIntSpace) && n > 0
    ensures PositiveIntArg(lead + IntToString(n) + trail) == Ok(n)
  {
    var s := IntToString(n);
    assert Trimmed(s, IsIntSpace) by {
      assert IsDigit(s[0]);
      assert IsDigit(s[|s| - 1]);
    }
    TrimPadded(lead, s, trail, IsIntSpace);
    ParseIntToString(n);
  }

  /** `int()` skips ordinary whitespace around the digits. */
  lemma PositiveIntArgSpaces()
    ensures PositiveIntArg(" 8\n") == Ok(8)
  {
    SpacesTrimmed();
    assert ParseInt("8") == Some(8) by {
      assert DigitsValue("8") == DigitsValue("") * 10 + 8;
    }
  }

  lemma SpacesTrimmed()
    ensures Trim(" 8\n", IsIntSpace) == "8"
  {
    assert IsIntSpace(' ') && IsIntSpace('\n') && !IsIntSpace('8');
    TrimPadded(" ", "8", "\n", IsIntSpace);
    assert " " + "8" + "\n" == " 8\n";
  }

  /** `int()` refuses the separator U+001C, which `str.strip()` would have removed. */
  lemma PositiveIntArgSeparator()
    ensures PositiveIntArg("\U{1C}8").Err?
  {
    var text := "\U{1C}8";
    SeparatorKept();
    assert text[0] as int == 0x1C;
    ParseIntRefusesLead(text);
  }

  lemma SeparatorKept()
    ensures Trim("\U{1C}8", IsIntSpace) == "\U{1C}8"
  {
    var text := "\U{1C}8";
    assert !IsIntSpace(text[0]) && !IsIntSpace(text[1]);
    TrimTrimmed(text, IsIntSpace);
  }

  /** The configuration the builder receives. */
  datatype Config = Config(saltSize: Positive, digestLen: Positive, iterations: Positive)

  const Defaults := Config(16, 32, 4096)

  /** One option with the intended converter: its default when absent, its converted text when given. */
  function ConvertOption(given: Option<string>, default: Positive): (r: Result<Positive, ArgumentTypeError>)
    ensures given.None? ==> r == Ok(default)
  {
    match given
    case None => Ok(default)
    case Some(text) => PositiveIntArg(text)
  }

  /** The value taken for one option: its default when absent, what its text converts to when given. */
  predicate Honoured(given: Option<string>, default: Positive, v: Positive) {
    match given
    case None => v == default
    case Some(text) => PositiveIntArg(text) == Ok(v)
  }

  /** An option the intended converter does not refuse: absent, or text it accepts. */
  predicate Acceptable(given: Option<string>) {
    given.None? || PositiveIntArg(given.value).Ok?
  }

  /**
   * `args_parser.parse_args()` with the intended converter: it succeeds
   * exactly when every given option converts, and then every option is
   * taken as given or defaulted; any failure is "not a positive integer".
   */
  function ParseArgs(a: Args): (r: Result<Config, ArgumentTypeError>)
    ensures r.Ok? <==> Acceptable(a.saltSize) && Acceptable(a.digestLen) && Acceptable(a.iterations)
    ensures r.Ok? ==>
      && Honoured(a.saltSize, 16, r.value.saltSize)
      && Honoured(a.digestLen, 32, r.value.digestLen)
      && Honoured(a.iterations, 4096, r.value.iterations)
    ensures r.Err? ==> r.error == ArgumentTypeError("not a positive integer")
  {
    match (ConvertOption(a.saltSize, Defaults.saltSize), ConvertOption(a.digestLen, Defaults.digestLen),
           ConvertOption(a.iterations, Defaults.iterations))
    case (Ok(s), Ok(d), Ok(i)) => Ok(Config(s, d, i))
    case (Err(e), _, _) => Err(e)
    case (_, Err(e), _) => Err(e)
    case (_, _, Err(e)) => Err(e)
  }

  /** With the intended converter, positive decimal values given on the command line are taken. */
  lemma ParseArgsDecimal(saltSize: int, digestLen: int, iterations: int)
    ensures var r := ParseArgs(Args(Some(IntToString(saltSize)), Some(IntToString(digestLen)), Some(IntToString(iterations))));
      && (r.Ok? <==> saltSize > 0 && digestLen > 0 && iterations > 0)
      && (r.Ok? ==> r.value == Config(saltSize, digestLen, iterations))
  {
    PositiveIntArgOfDecimal(saltSize);
    PositiveIntArgOfDecimal(digestLen);
    PositiveIntArgOfDecimal(iterations);
  }

  // ------------------------------------------------------------ main loop

  /** The salt source: the bytes `urandom(size)` returns on its `call`th use. */
  type Urandom = f: (nat, nat) -> Bytes
    | forall call, size :: |f(call, size)| == size
    witness (call: nat, size: nat) => Zeros(size)

  /**
   * The loop of pgpasswd.py:64-72: one verifier per line, in input order,
   * built from the line without its surrounding whitespace and with a
   * fresh salt of the configured size; none of them fails.
   */
  function Run(p: Scram.Primitives, cfg: Config, lines: seq<string>, urandom: Urandom): (out: seq<string>)
    ensures |out| == |lines|
    ensures forall k :: 0 <= k < |lines| ==>
      Scram.Build(p, Strip(lines[k]), cfg.iterations, cfg.digestLen, urandom(k, cfg.saltSize)) == Ok(out[k])
  {
    seq(|lines|, k requires 0 <= k < |lines| =>
      Scram.Build(p, Strip(lines[k]), cfg.iterations, cfg.digestLen, urandom(k, cfg.saltSize)).value)
  }

  /**
   * Every printed verifier parses back to the configured iteration count,
   * the salt drawn for its line, of the configured size, and two 32-byte keys.
   */
  lemma RunRecords(p: Scram.Primitives, cfg: Config, lines: seq<string>, urandom: Urandom, k: nat)
    requires k < |lines|
    ensures var v := Scram.Parse(Run(p, cfg, lines, urandom)[k]);
      && v.Some?
      && v.value.iterations == cfg.iterations
      && v.value.salt == urandom(k, cfg.saltSize)
      && |v.value.salt| == cfg.saltSize
      && |v.value.storedKey| == 32
      && |v.value.serverKey| == 32
  {
    var out := Run(p, cfg, lines, urandom);
    assert Scram.Build(p, Strip(lines[k]), cfg.iterations, cfg.digestLen, urandom(k, cfg.saltSize)) == Ok(out[k]);
  }

  /** A line as `readlines` yields it, newline included, gives the password it holds. */
  lemma LinePassword(password: string)
    requires IsStripped(password)
    ensures Strip(password + "\n") == password
  {
    StripPadded("", password, "\n");
    assert "" + password + "\n" == password + "\n";
  }

  /** A namespace value `pg_scram_sha256` can be handed as a count or a size: an `int` above zero. */
  predicate IsPositiveInt(v: PyValue) {
    IsInstanceInt(v) && IntValue(v) > 0
  }

  /** The three values `main` passes on to `pg_scram_sha256` (pgpasswd.py:68-70). */
  function Settings(ns: Namespace): (cfg: Config)
    requires IsPositiveInt(ns.saltSize) && IsPositiveInt(ns.digestLen) && IsPositiveInt(ns.iterations)
  {
    Config(IntValue(ns.saltSize), IntValue(ns.digestLen), IntValue(ns.iterations))
  }

  /**
   * The program as written (pgpasswd.py:62-72): the options are read
   * first, and an error there stops it before any line is read. Since
   * every option given is refused, it either fails on the options or
   * prints, for every line, a verifier with the default settings.
   */
  function Pgpasswd(p: Scram.Primitives, a: Args, lines: seq<string>, urandom: Urandom): (r: Result<seq<string>, ArgumentTypeError>)
    ensures r.Ok? <==> a == Args(None, None, None)
    ensures r.Ok? ==> r.value == Run(p, Defaults, lines, urandom)
    ensures r.Err? ==> r.error == ArgumentTypeError("not a positive integer")
  {
    match ParseArgsAsWritten(a)
    case Err(e) => Err(e)
    case Ok(ns) => Ok(Run(p, Settings(ns), lines, urandom))
  }

  /**
   * Every verifier the program prints has 4096 iterations, the 16 bytes
   * drawn for its line as salt, and two 32-byte keys.
   */
  lemma PgpasswdRecords(p: Scram.Primitives, lines: seq<string>, urandom: Urandom, k: nat)
    requires k < |lines|
    ensures var r := Pgpasswd(p, Args(None, None, None), lines, urandom);
      && r.Ok? && |r.value| == |lines|
      && var v := Scram.Parse(r.value[k]);
      && v.Some? && v.value.iterations == 4096
      && v.value.salt == urandom(k, 16) && |v.value.salt| == 16
      && |v.value.storedKey| == 32 && |v.value.serverKey| == 32
  {
    RunRecords(p, Defaults, lines, urandom, k);
  }

  /** The program with the intended converter: the options it is given are honoured. */
  function PgpasswdIntended(p: Scram.Primitives, a: Args, lines: seq<string>, urandom: Urandom): (r: Result<seq<string>, ArgumentTypeError>)
    ensures r.Err? <==> ParseArgs(a).Err?
    ensures r.Err? ==> r.error == ArgumentTypeError("not a positive integer")
    ensures r.Ok? ==> r.value == Run(p, ParseArgs(a).value, lines, urandom) && |r.value| == |lines|
  {
    match ParseArgs(a)
    case Err(e) => Err(e)
    case Ok(cfg) => Ok(Run(p, cfg, lines, urandom))
  }

  /**
   * With the intended converter, decimal options are honoured: the run
   * goes ahead exactly when all three are positive, with those settings.
   */
  lemma PgpasswdIntendedDecimal(p: Scram.Primitives, saltSize: int, digestLen: int, iterations: int,
                                lines: seq<string>, urandom: Urandom)
    ensures var a := Args(Some(IntToString(saltSize)), Some(IntToString(digestLen)), Some(IntToString(iterations)));
      var r := PgpasswdIntended(p, a, lines, urandom);
      && (r.Ok? <==> saltSize > 0 && digestLen > 0 && iterations > 0)
      && (r.Ok? ==> r.value == Run(p, Config(saltSize, digestLen, iterations), lines, urandom))
  {
    ParseArgsDecimal(saltSize, digestLen, iterations);
  }
}

=== FILE: scram.dfy ===
/**
 * The SCRAM-SHA-256 verifier that `pg_scram_sha256` builds
 * (pgpasswd.py:20-35): the key schedule of section 3 of RFC 5802 with
 * SHA-256 as the hash (RFC 7677), and the textual layout
 * `SCRAM-SHA-256$<iterations>:<salt>$<StoredKey>:<ServerKey>`.
 */
module Scram {
  import opened Wrappers
  import opened Octets
  import opened Text
  import Base64
  import Utf8

  /** A SHA-256 digest, and so also an HMAC-SHA-256 tag. */
  type Digest = d: Bytes | |d| == 32 witness Zeros(32)

  /** PBKDF2-HMAC-SHA256 (password, salt, iteration count, key length): a key of the requested length. */
  type Pbkdf2 = f: (Bytes, Bytes, nat, nat) -> Bytes
    | forall password, salt, iterations, dkLen :: |f(password, salt, iterations, dkLen)| == dkLen
    witness (password: Bytes, salt: Bytes, iterations: nat, dkLen: nat) => Zeros(dkLen)

  /**
   * The library functions the builder calls: `hashlib.sha256`,
   * `hmac.digest(..., "sha256")` and `hashlib.pbkdf2_hmac("sha256", ...)`.
   * Nothing is known of them but the lengths of their outputs.
   */
  datatype Primitives = Primitives(
    sha256: Bytes -> Digest,
    hmacSha256: (Bytes, Bytes) -> Digest,
    pbkdf2HmacSha256: Pbkdf2)

  /** The fields of a verifier record. */
  datatype Verifier = Verifier(iterations: int, salt: Bytes, storedKey: Bytes, serverKey: Bytes)

  /** The `ValueError` that `hashlib.pbkdf2_hmac` raises for a non-positive count or length. */
  datatype Error = ValueError(message: string)

  const Mechanism: string := "SCRAM-SHA-256"

  /** The messages `b"Client Key"` and `b"Server Key"`. */
  const ClientKeyMessage: Bytes := Utf8.Encode("Client Key")
  const ServerKeyMessage: Bytes := Utf8.Encode("Server Key")

  /** `b"Client Key"` and `b"Server Key"` are the ten ASCII bytes of their text. */
  lemma KeyMessages()
    ensures |ClientKeyMessage| == 10 && forall k :: 0 <= k < 10 ==> ClientKeyMessage[k] == "Client Key"[k] as int
    ensures |ServerKeyMessage| == 10 && forall k :: 0 <= k < 10 ==> ServerKeyMessage[k] == "Server Key"[k] as int
  {
    var client, server := "Client Key", "Server Key";
    assert forall k :: 0 <= k < |client| ==> client[k] as int < 0x80;
    assert forall k :: 0 <= k < |server| ==> server[k] as int < 0x80;
    Utf8.EncodeAscii(client);
    Utf8.EncodeAscii(server);
  }

  /**
   * The f-string of pgpasswd.py:35, over the already computed fields: the
   * mechanism name and four delimiters, the count's digits and the Base64
   * text of three byte strings, four characters for every three bytes or
   * part thereof.
   */
  function Format(v: Verifier): (s: string)
    ensures |s| == 17 + |IntToString(v.iterations)|
      + 4 * ((|v.salt| + 2) / 3) + 4 * ((|v.storedKey| + 2) / 3) + 4 * ((|v.serverKey| + 2) / 3)
  {
    Mechanism + "$" + IntToString(v.iterations) + ":" + Base64.Encode(v.salt)
    + "$" + Base64.Encode(v.storedKey) + ":" + Base64.Encode(v.serverKey)
  }

  /**
   * Reads a verifier back: three `$`-separated fields, the first the
   * mechanism name, the second and third two `:`-separated parts each.
   * The iteration count must be written as `str` writes it and the other
   * parts must be canonical Base64.
   */
  function Parse(s: string): (r: Option<Verifier>) {
    var fields := Split(s, '$');
    if |fields| != 3 || fields[0] != Mechanism then None
    else
      var head, keys := Split(fields[1], ':'), Split(fields[2], ':');
      if |head| != 2 || |keys| != 2 then None
      else
        match (ParseInt(head[0]), Base64.Decode(head[1]), Base64.Decode(keys[0]), Base64.Decode(keys[1]))
        case (Some(iterations), Some(salt), Some(storedKey), Some(serverKey)) =>
          if IntToString(iterations) == head[0] then Some(Verifier(iterations, salt, storedKey, serverKey))
          else None
        case _ => None
  }

  lemma IntToStringHasNoDelimiters(n: int)
    ensures '$' !in IntToString(n) && ':' !in IntToString(n)
  {
  }

  /** The two `:`-separated parts of a field. */
  lemma SplitPair(a: string, b: string)
    requires ':' !in a && ':' !in b
    ensures Split(a + ":" + b, ':') == [a, b]
  {
    JoinTwo(a, b, ':');
    SplitJoin([a, b], ':');
  }

  /** A formatted verifier is the `$`-join of its three fields. */
  lemma FormatIsJoin(v: Verifier)
    ensures var head := IntToString(v.iterations) + ":" + Base64.Encode(v.salt);
      var keys := Base64.Encode(v.storedKey) + ":" + Base64.Encode(v.serverKey);
      Split(Format(v), '$') == Split(Join([Mechanism, head, keys], '$'), '$')
  {
    var head := IntToString(v.iterations) + ":" + Base64.Encode(v.salt);
    var keys := Base64.Encode(v.storedKey) + ":" + Base64.Encode(v.serverKey);
    JoinThree(Mechanism, head, keys, '$');
    Regroup(Mechanism, IntToString(v.iterations), Base64.Encode(v.salt), Base64.Encode(v.storedKey), Base64.Encode(v.serverKey));
  }

  lemma Regroup(m: string, c: string, e1: string, e2: string, e3: string)
    ensures m + "$" + c + ":" + e1 + "$" + e2 + ":" + e3 == m + "$" + (c + ":" + e1) + "$" + (e2 + ":" + e3)
  {
  }

  /** The three `$`-separated fields of a formatted verifier. */
  lemma SplitFormat(v: Verifier)
    ensures Split(Format(v), '$') == [
      Mechanism,
      IntToString(v.iterations) + ":" + Base64.Encode(v.salt),
      Base64.Encode(v.storedKey) + ":" + Base64.Encode(v.serverKey)]
  {
    var head := IntToString(v.iterations) + ":" + Base64.Encode(v.salt);
    var keys := Base64.Encode(v.storedKey) + ":" + Base64.Encode(v.serverKey);
    IntToStringHasNoDelimiters(v.iterations);
    Base64.EncodeHasNoDelimiters(v.salt);
    Base64.EncodeHasNoDelimiters(v.storedKey);
    Base64.EncodeHasNoDelimiters(v.serverKey);
    assert '$' !in Mechanism;
    assert '$' !in head && '$' !in keys;
    FormatIsJoin(v);
    SplitJoin([Mechanism, head, keys], '$');
  }

  /** Parsing a formatted verifier recovers every field. */
  lemma ParseFormat(v: Verifier)
    ensures Parse(Format(v)) == Some(v)
  {
    var count, salt := IntToString(v.iterations), Base64.Encode(v.salt);
    var stored, server := Base64.Encode(v.storedKey), Base64.Encode(v.serverKey);
    IntToStringHasNoDelimiters(v.iterations);
    Base64.EncodeHasNoDelimiters(v.salt);
    Base64.EncodeHasNoDelimiters(v.storedKey);
    Base64.EncodeHasNoDelimiters(v.serverKey);
    SplitFormat(v);
    SplitPair(count, salt);
    SplitPair(stored, server);
    ParseIntToString(v.iterations);
    Base64.DecodeEncode(v.salt);
    Base64.DecodeEncode(v.storedKey);
    Base64.DecodeEncode(v.serverKey);
  }

  /** A field whose two `:`-separated parts are `a` and `b` is `a`, `:`, `b`. */
  lemma JoinPair(field: string)
    requires |Split(field, ':')| == 2
    ensures field == Split(field, ':')[0] + ":" + Split(field, ':')[1]
  {
    var parts := Split(field, ':');
    JoinSplit(field, ':');
    assert parts == [parts[0], parts[1]];
    JoinTwo(parts[0], parts[1], ':');
  }

  /** Only formatted verifiers parse: the text is the format of what it parses to. */
  lemma FormatParse(s: string, v: Verifier)
    requires Parse(s) == Some(v)
    ensures Format(v) == s
  {
    var fields := Split(s, '$');
    var head, keys := Split(fields[1], ':'), Split(fields[2], ':');
    Base64.EncodeDecode(head[1], v.salt);
    Base64.EncodeDecode(keys[0], v.storedKey);
    Base64.EncodeDecode(keys[1], v.serverKey);
    JoinPair(fields[1]);
    JoinPair(fields[2]);
    SplitFormat(v);
    assert fields == [fields[0], fields[1], fields[2]];
    assert fields == Split(Format(v), '$');
    JoinSplit(s, '$');
    JoinSplit(Format(v), '$');
  }

  /** The layout is unambiguous: a text parses to `v` exactly when it is the format of `v`. */
  lemma ParseIff(s: string, v: Verifier)
    ensures Parse(s) == Some(v) <==> Format(v) == s
  {
    if Parse(s) == Some(v) {
      FormatParse(s, v);
    }
    if Format(v) == s {
      ParseFormat(v);
    }
  }

  /**
   * `pg_scram_sha256` with the salt drawn by the caller:
   *   SaltedPassword := PBKDF2(UTF-8(password), salt, i, digest_len)
   *   ClientKey      := HMAC(SaltedPassword, "Client Key")
   *   StoredKey      := SHA-256(ClientKey)
   *   ServerKey      := HMAC(SaltedPassword, "Server Key")
   * The record can be parsed back, with every field as the key schedule
   * of RFC 5802 defines it. It fails, as `hashlib` does, only when the
   * iteration count or the key length is not positive.
   */
  function Build(p: Primitives, passwd: string, iterations: int, digestLen: int, salt: Bytes): (r: Result<string, Error>)
    ensures r.Ok? <==> iterations >= 1 && digestLen >= 1
    ensures r.Ok? ==>
      var saltedPassword := p.pbkdf2HmacSha256(Utf8.Encode(passwd), salt, iterations, digestLen);
      Parse(r.value) == Some(Verifier(
        iterations,
        salt,
        p.sha256(p.hmacSha256(saltedPassword, ClientKeyMessage)),
        p.hmacSha256(saltedPassword, ServerKeyMessage)))
  {
    if iterations < 1 then Err(ValueError("iteration value must be greater than 0."))
    else if digestLen < 1 then Err(ValueError("key length must be greater than 0."))
    else
      var digestKey := p.pbkdf2HmacSha256(Utf8.Encode(passwd), salt, iterations, digestLen);
      var clientKey := p.hmacSha256(digestKey, ClientKeyMessage);
      var storedKey := p.sha256(clientKey);
      var serverKey := p.hmacSha256(digestKey, ServerKeyMessage);
      var v := Verifier(iterations, salt, storedKey, serverKey);
      ParseFormat(v);
      Ok(Format(v))
  }

  /**
   * The text splits on `$` into exactly three fields and each of the last
   * two on `:` into exactly two; the first field names the mechanism, then
   * come the decimal iteration count and the salt, and the two keys decode
   * to 32 bytes each, whatever `digest_len` is.
   */
  lemma BuildFields(p: Primitives, passwd: string, iterations: int, digestLen: int, salt: Bytes)
    requires iterations >= 1 && digestLen >= 1
    ensures var fields := Split(Build(p, passwd, iterations, digestLen, salt).value, '$');
      && |fields| == 3
      && fields[0] == "SCRAM-SHA-256"
      && |Split(fields[1], ':')| == 2
      && |Split(fields[2], ':')| == 2
      && Split(fields[1], ':')[0] == IntToString(iterations)
      && Base64.Decode(Split(fields[1], ':')[1]) == Some(salt)
      && Base64.Decode(Split(fields[2], ':')[0]).Some?
      && |Base64.Decode(Split(fields[2], ':')[0]).value| == 32
      && Base64.Decode(Split(fields[2], ':')[1]).Some?
      && |Base64.Decode(Split(fields[2], ':')[1]).value| == 32
  {
    var s := Build(p, passwd, iterations, digestLen, salt).value;
    var v := Parse(s).value;
    FormatParse(s, v);
    ParseFormat(v);
  }

  /** The record `Build` returns is the format of the key schedule's fields. */
  lemma BuildIsFormat(p: Primitives, passwd: string, iterations: int, digestLen: int, salt: Bytes)
    returns (v: Verifier)
    requires iterations >= 1 && digestLen >= 1
    ensures Build(p, passwd, iterations, digestLen, salt).value == Format(v)
    ensures v.iterations == iterations && v.salt == salt && |v.storedKey| == 32 && |v.serverKey| == 32
  {
    var s := Build(p, passwd, iterations, digestLen, salt).value;
    v := Parse(s).value;
    FormatParse(s, v);
  }

  lemma PrefixOfLayout(m: string, c: string, e1: string, e2: string, e3: string)
    ensures var prefix := m + "$" + c + ":";
      (m + "$" + c + ":" + e1 + "$" + e2 + ":" + e3)[..|prefix|] == prefix
  {
    var prefix := m + "$" + c + ":";
    assert m + "$" + c + ":" + e1 + "$" + e2 + ":" + e3 == prefix + (e1 + "$" + e2 + ":" + e3);
  }

  lemma FormatPrefix(v: Verifier)
    ensures var prefix := "SCRAM-SHA-256$" + IntToString(v.iterations) + ":";
      |prefix| <= |Format(v)| && Format(v)[..|prefix|] == prefix
  {
    var c := IntToString(v.iterations);
    PrefixOfLayout(Mechanism, c, Base64.Encode(v.salt), Base64.Encode(v.storedKey), Base64.Encode(v.serverKey));
    assert Mechanism + "$" == "SCRAM-SHA-256$";
  }

  /** The text starts with the mechanism name, `$`, the iteration count in decimal and `:`. */
  lemma BuildPrefix(p: Primitives, passwd: string, iterations: int, digestLen: int, salt: Bytes)
    requires iterations >= 1 && digestLen >= 1
    ensures var prefix := "SCRAM-SHA-256$" + IntToString(iterations) + ":";
      var s := Build(p, passwd, iterations, digestLen, salt).value;
      |prefix| <= |s| && s[..|prefix|] == prefix
  {
    var v := BuildIsFormat(p, passwd, iterations, digestLen, salt);
    FormatPrefix(v);
  }

  /** The length of a verifier whose keys have 32 bytes each. */
  lemma FormatLength(v: Verifier)
    requires |v.storedKey| == 32 && |v.serverKey| == 32
    ensures |Format(v)| == 105 + |IntToString(v.iterations)| + 4 * ((|v.salt| + 2) / 3)
  {
    LayoutLength(|IntToString(v.iterations)|, |v.salt|, |v.storedKey|, |v.serverKey|);
  }

  /** Two 32-byte keys take 44 Base64 characters each. */
  lemma LayoutLength(digits: nat, salt: nat, stored: nat, server: nat)
    requires stored == 32 && server == 32
    ensures 17 + digits + 4 * ((salt + 2) / 3) + 4 * ((stored + 2) / 3) + 4 * ((server + 2) / 3)
      == 105 + digits + 4 * ((salt + 2) / 3)
  {
  }

  /** The length of the text: 105 fixed characters, the count's digits and the salt's Base64. */
  lemma BuildLength(p: Primitives, passwd: string, iterations: int, digestLen: int, salt: Bytes)
    requires iterations >= 1 && digestLen >= 1
    ensures |Build(p, passwd, iterations, digestLen, salt).value|
      == 105 + |IntToString(iterations)| + 4 * ((|salt| + 2) / 3)
  {
    var v := BuildIsFormat(p, passwd, iterations, digestLen, salt);
    FormatLength(v);
  }

  /**
   * Two records that are equal were built with the same iteration count
   * and the same salt: a fresh salt gives a fresh record.
   */
  lemma BuildDeterminesSalt(p: Primitives, passwd1: string, passwd2: string,
                            iterations1: int, iterations2: int,
                            digestLen1: int, digestLen2: int, salt1: Bytes, salt2: Bytes)
    requires Build(p, passwd1, iterations1, digestLen1, salt1).Ok?
    requires Build(p, passwd1, iterations1, digestLen1, salt1) == Build(p, passwd2, iterations2, digestLen2, salt2)
    ensures iterations1 == iterations2 && salt1 == salt2
  {
  }

  /**
   * The record depends on nothing but the password, salt, iteration count
   * and key length: primitives that agree at the four applications the
   * key schedule makes (PBKDF2 once, HMAC-SHA-256 twice, SHA-256 once)
   * give the same record.
   */
  lemma BuildDeterministic(p: Primitives, q: Primitives, passwd: string, iterations: nat, digestLen: nat, salt: Bytes)
    requires p.pbkdf2HmacSha256(Utf8.Encode(passwd), salt, iterations, digestLen)
      == q.pbkdf2HmacSha256(Utf8.Encode(passwd), salt, iterations, digestLen)
    requires var k := p.pbkdf2HmacSha256(Utf8.Encode(passwd), salt, iterations, digestLen);
      && p.hmacSha256(k, ClientKeyMessage) == q.hmacSha256(k, ClientKeyMessage)
      && p.hmacSha256(k, ServerKeyMessage) == q.hmacSha256(k, ServerKeyMessage)
      && p.sha256(p.hmacSha256(k, ClientKeyMessage)) == q.sha256(p.hmacSha256(k, ClientKeyMessage))
    ensures Build(p, passwd, iterations, digestLen, salt) == Build(q, passwd, iterations, digestLen, salt)
  {
  }
}

=== FILE: text.dfy ===
/**
 * Python `str` behaviour. The program itself uses the decimal rendering
 * of an `int` in an f-string and `str.strip()` with no argument. `int()`
 * on a string belongs to the corrected option converter only, and
 * `str.split(sep)` to the parser that reads a verifier back; the program
 * calls neither.
 */
module Text {
  import opened Wrappers

  // ---------------------------------------------------------------- split

  /** `s.split(sep)`: the pieces between occurrences of `sep`, empty ones included. */
  function Split(s: string, sep: char): (parts: seq<string>)
    ensures |parts| >= 1
    ensures forall k :: 0 <= k < |parts| ==> sep !in parts[k]
    decreases |s|
  {
    if |s| == 0 then [""]
    else
      var rest := Split(s[1..], sep);
      if s[0] == sep then [""] + rest
      else [[s[0]] + rest[0]] + rest[1..]
  }

  /** `sep.join(parts)`. */
  function Join(parts: seq<string>, sep: char): (s: string)
    requires |parts| >= 1
    decreases |parts|
  {
    if |parts| == 1 then parts[0] else parts[0] + [sep] + Join(parts[1..], sep)
  }

  lemma JoinTwo(a: string, b: string, sep: char)
    ensures Join([a, b], sep) == a + [sep] + b
  {
    assert [a, b][1..] == [b];
  }

  lemma JoinThree(a: string, b: string, c: string, sep: char)
    ensures Join([a, b, c], sep) == a + [sep] + b + [sep] + c
  {
    assert [a, b, c][1..] == [b, c];
    JoinTwo(b, c, sep);
  }

  /** Joining the pieces of a split gives the text back. */
  lemma {:induction false} JoinSplit(s: string, sep: char)
    ensures Join(Split(s, sep), sep) == s
    decreases |s|
  {
    if |s| > 0 {
      JoinSplit(s[1..], sep);
      var rest := Split(s[1..], sep);
      if s[0] == sep {
        assert s == [sep] + s[1..];
      } else if |rest| == 1 {
        assert s == [s[0]] + s[1..];
      } else {
        assert rest == [rest[0]] + rest[1..];
        assert Join(rest, sep) == rest[0] + [sep] + Join(rest[1..], sep);
        assert s == [s[0]] + s[1..];
      }
    }
  }

  /** A text without `sep` followed by `sep` splits off as the first piece. */
  lemma {:induction false} SplitAfterPiece(a: string, t: string, sep: char)
    requires sep !in a
    ensures Split(a + [sep] + t, sep) == [a] + Split(t, sep)
    decreases |a|
  {
    if |a| == 0 {
      assert a + [sep] + t == [sep] + t;
      assert ([sep] + t)[1..] == t;
    } else {
      SplitAfterPiece(a[1..], t, sep);
      assert (a + [sep] + t)[1..] == a[1..] + [sep] + t;
      assert [a[0]] + a[1..] == a;
    }
  }

  /** A text without `sep` is a single piece. */
  lemma {:induction false} SplitNoSeparator(a: string, sep: char)
    requires sep !in a
    ensures Split(a, sep) == [a]
    decreases |a|
  {
    if |a| > 0 {
      SplitNoSeparator(a[1..], sep);
      assert [a[0]] + a[1..] == a;
    }
  }

  /** Pieces free of `sep` are recovered by splitting their join. */
  lemma {:induction false} SplitJoin(parts: seq<string>, sep: char)
    requires |parts| >= 1
    requires forall k :: 0 <= k < |parts| ==> sep !in parts[k]
    ensures Split(Join(parts, sep), sep) == parts
    decreases |parts|
  {
    if |parts| == 1 {
      SplitNoSeparator(parts[0], sep);
    } else {
      SplitJoin(parts[1..], sep);
      SplitAfterPiece(parts[0], Join(parts[1..], sep), sep);
      assert [parts[0]] + parts[1..] == parts;
    }
  }

  // -------------------------------------------------------------- decimal

  predicate IsDigit(c: char) {
    '0' <= c <= '9'
  }

  function DigitChar(d: int): (c: char)
    requires 0 <= d < 10
    ensures IsDigit(c)
  {
    ('0' as int + d) as char
  }

  predicate AllDigits(s: string) {
    forall k :: 0 <= k < |s| ==> IsDigit(s[k])
  }

  /** Value of a digit string, most significant digit first. */
  function DigitsValue(s: string): (v: nat)
    requires forall k :: 0 <= k < |s| ==> IsDigit(s[k])
    decreases |s|
  {
    if |s| == 0 then 0
    else
      assert IsDigit(s[|s| - 1]);
      DigitsValue(s[..|s| - 1]) * 10 + (s[|s| - 1] as int - '0' as int)
  }

  /** `str(n)` for a non-negative `n`: decimal digits without leading zeros. */
  function NatToString(n: nat): (s: string)
    ensures 1 <= |s| && forall k :: 0 <= k < |s| ==> IsDigit(s[k])
    ensures s[0] == '0' ==> n == 0 && s == "0"
    decreases n
  {
    if n < 10 then [DigitChar(n)] else NatToString(n / 10) + [DigitChar(n % 10)]
  }

  /**
   * `str(n)`, and so the rendering of `{n}` in an f-string: one or more
   * decimal digits without leading zeros, after a `-` exactly when `n` is
   * negative.
   */
  function IntToString(n: int): (s: string)
    ensures |s| >= 1 && (s[0] == '-' <==> n < 0)
    ensures forall k :: 0 <= k < |s| ==> IsDigit(s[k]) || (k == 0 && n < 0 && s[k] == '-')
    ensures n < 0 ==> |s| >= 2 && s[1] != '0'
    ensures n >= 0 && s[0] == '0' ==> s == "0"
  {
    if n < 0 then "-" + NatToString(-n) else NatToString(n)
  }

  /**
   * `int(s)` on ASCII text whose surrounding whitespace has already been
   * removed (`int()` itself skips it): an optional sign and one or more
   * decimal digits (leading zeros allowed); `None` stands for the `ValueError`.
   */
  function ParseInt(s: string): (r: Option<int>)
  {
    var signed := |s| > 0 && (s[0] == '-' || s[0] == '+');
    var digits := if signed then s[1..] else s;
    if |digits| == 0 || !AllDigits(digits) then None
    else
      var magnitude: int := DigitsValue(digits);
      Some(if signed && s[0] == '-' then -magnitude else magnitude)
  }

  /** Trimmed text that starts with neither a sign nor a digit is not a number. */
  lemma ParseIntRefusesLead(s: string)
    requires |s| > 0 && s[0] != '-' && s[0] != '+' && !IsDigit(s[0])
    ensures ParseInt(s) == None
  {
    assert !IsDigit(s[0]);
  }

  lemma {:induction false} DigitsValueOfNat(n: nat)
    ensures DigitsValue(NatToString(n)) == n
    decreases n
  {
    if n >= 10 {
      DigitsValueOfNat(n / 10);
      var s := NatToString(n);
      assert s[..|s| - 1] == NatToString(n / 10);
    }
  }

  /** The rendering of an integer parses back to that integer. */
  lemma ParseIntToString(n: int)
    ensures ParseInt(IntToString(n)) == Some(n)
  {
    var s := IntToString(n);
    if n < 0 {
      DigitsValueOfNat(-n);
      assert s[1..] == NatToString(-n);
    } else {
      DigitsValueOfNat(n);
    }
  }

  // ---------------------------------------------------------------- strip

  /** `c.isspace()` in Python: the whitespace that `str.strip()` removes. */
  predicate IsSpace(c: char) {
    var n := c as int;
    (0x09 <= n <= 0x0D) || (0x1C <= n <= 0x20) || n == 0x85 || n == 0xA0 || n == 0x1680
    || (0x2000 <= n <= 0x200A) || n == 0x2028 || n == 0x2029 || n == 0x202F || n == 0x205F || n == 0x3000
  }

  /**
   * The whitespace `int()` skips around its digits. It leaves ASCII text
   * as it is and skips only tab, line feed, vertical tab, form feed,
   * carriage return and space there, so the separators U+001C to U+001F
   * are refused; every other whitespace character is first turned into a
   * space, and so skipped.
   */
  predicate IsIntSpace(c: char) {
    IsSpace(c) && !(0x1C <= c as int <= 0x1F)
  }

  // Trimming is stated for any class of characters `drop`; `str.strip()`
  // is the case where `drop` is `IsSpace`.

  /** Every character of `s` is in `drop`. */
  predicate All(s: string, drop: char -> bool) {
    forall k :: 0 <= k < |s| ==> drop(s[k])
  }

  /** Neither end of `s` is in `drop`. */
  predicate Trimmed(s: string, drop: char -> bool) {
    |s| > 0 ==> !drop(s[0]) && !drop(s[|s| - 1])
  }

  /** The longest suffix of `s` that does not start with a character of `drop`. */
  function TrimStart(s: string, drop: char -> bool): (r: string)
    ensures |r| <= |s| && r == s[|s| - |r|..]
    ensures All(s[..|s| - |r|], drop)
    ensures |r| > 0 ==> !drop(r[0])
    decreases |s|
  {
    if |s| > 0 && drop(s[0]) then TrimStart(s[1..], drop) else s
  }

  /** The longest prefix of `s` that does not end with a character of `drop`. */
  function TrimEnd(s: string, drop: char -> bool): (r: string)
    ensures |r| <= |s| && r == s[..|r|]
    ensures All(s[|r|..], drop)
    ensures |r| > 0 ==> !drop(r[|r| - 1])
    decreases |s|
  {
    if |s| > 0 && drop(s[|s| - 1]) then TrimEnd(s[..|s| - 1], drop) else s
  }

  /**
   * `s` without the characters of `drop` at either end: what is left of
   * `s` once a run of such characters is taken off each end, and the
   * runs are as long as they can be.
   */
  function Trim(s: string, drop: char -> bool): (r: string)
    ensures Trimmed(r, drop)
    ensures exists lead, trail :: s == lead + r + trail && All(lead, drop) && All(trail, drop)
  {
    var l := TrimStart(s, drop);
    var r := TrimEnd(l, drop);
    TrimmedSlice(s, l, r, drop);
    r
  }

  /** Characters taken off the front of `s`, giving `l`, and then off the back of `l`, giving `r`. */
  lemma TrimmedSlice(s: string, l: string, r: string, drop: char -> bool)
    requires |l| <= |s| && l == s[|s| - |l|..] && All(s[..|s| - |l|], drop) && (|l| > 0 ==> !drop(l[0]))
    requires |r| <= |l| && r == l[..|r|] && All(l[|r|..], drop) && (|r| > 0 ==> !drop(r[|r| - 1]))
    ensures Trimmed(r, drop)
    ensures exists lead, trail :: s == lead + r + trail && All(lead, drop) && All(trail, drop)
  {
    var i := |s| - |l|;
    assert s[i..i + |r|] == r;
    assert s[i + |r|..] == l[|r|..];
    assert |r| > 0 ==> r[0] == l[0];
    assert s == s[..i] + r + s[i + |r|..];
  }

  lemma {:induction false} TrimStartPadded(lead: string, x: string, drop: char -> bool)
    requires All(lead, drop) && (|x| > 0 ==> !drop(x[0]))
    ensures TrimStart(lead + x, drop) == x
    decreases |lead|
  {
    if |lead| > 0 {
      assert (lead + x)[1..] == lead[1..] + x;
      TrimStartPadded(lead[1..], x, drop);
    }
  }

  lemma {:induction false} TrimEndPadded(x: string, trail: string, drop: char -> bool)
    requires All(trail, drop) && (|x| > 0 ==> !drop(x[|x| - 1]))
    ensures TrimEnd(x + trail, drop) == x
    decreases |trail|
  {
    if |trail| > 0 {
      assert (x + trail)[..|x + trail| - 1] == x + trail[..|trail| - 1];
      TrimEndPadded(x, trail[..|trail| - 1], drop);
    }
  }

  /** Trimming around a trimmed text gives that text. */
  lemma TrimPadded(lead: string, core: string, trail: string, drop: char -> bool)
    requires All(lead, drop) && All(trail, drop) && Trimmed(core, drop)
    ensures Trim(lead + core + trail, drop) == core
  {
    assert lead + core + trail == lead + (core + trail);
    if |core| == 0 {
      assert core + trail == trail;
      assert All(lead + trail, drop);
      assert TrimStart(lead + trail, drop) == "";
    } else {
      TrimStartPadded(lead, core + trail, drop);
      TrimEndPadded(core, trail, drop);
    }
  }

  /** Trimming text whose ends are not in `drop` leaves it as it is. */
  lemma TrimTrimmed(s: string, drop: char -> bool)
    requires Trimmed(s, drop)
    ensures Trim(s, drop) == s
  {
    TrimPadded("", s, "", drop);
    assert "" + s + "" == s;
  }

  /** Neither end of `s` is whitespace. */
  predicate IsStripped(s: string) {
    Trimmed(s, IsSpace)
  }

  /**
   * `s.strip()`: `s` without its leading and trailing whitespace. The
   * result is `s` with whitespace removed at both ends and nowhere else,
   * and starts and ends with a non-whitespace character.
   */
  function Strip(s: string): (r: string)
    ensures IsStripped(r)
    ensures exists lead, trail :: s == lead + r + trail && All(lead, IsSpace) && All(trail, IsSpace)
  {
    Trim(s, IsSpace)
  }

  /** Stripping whitespace from around a stripped text gives that text. */
  lemma StripPadded(lead: string, core: string, trail: string)
    requires All(lead, IsSpace) && All(trail, IsSpace) && IsStripped(core)
    ensures Strip(lead + core + trail) == core
  {
    TrimPadded(lead, core, trail, IsSpace);
  }

  /** Stripping is idempotent. */
  lemma StripIdempotent(s: string)
    ensures Strip(Strip(s)) == Strip(s)
  {
    StripPadded("", Strip(s), "");
    assert "" + Strip(s) + "" == Strip(s);
  }
}

=== FILE: utf8.dfy ===
/**
 * `str.encode("utf8")` (section 3 of RFC 3629). A Dafny `char` is a
 * Unicode scalar value, so every text has an encoding. No normalisation
 * (such as SASLprep) is applied: distinct texts have distinct encodings.
 */
module Utf8 {
  import opened Octets

  /** Length of the encoded sequence that starts with `lead`. */
  function SequenceLength(lead: byte): (n: nat) {
    if lead < 0x80 then 1 else if lead < 0xE0 then 2 else if lead < 0xF0 then 3 else 4
  }

  /** The one to four bytes of one scalar value; the first byte tells how many follow. */
  function EncodeChar(c: char): (r: Bytes)
    ensures 1 <= |r| <= 4 && |r| == SequenceLength(r[0])
  {
    var n := c as int;
    if n < 0x80 then [n]
    else if n < 0x800 then [0xC0 + n / 0x40, 0x80 + n % 0x40]
    else if n < 0x1_0000 then [0xE0 + n / 0x1000, 0x80 + n / 0x40 % 0x40, 0x80 + n % 0x40]
    else [0xF0 + n / 0x4_0000, 0x80 + n / 0x1000 % 0x40, 0x80 + n / 0x40 % 0x40, 0x80 + n % 0x40]
  }

  /** The six payload bits of the `k`th byte of `r`, or 0 past its end. */
  function Continuation(r: Bytes, k: nat): (bits: int) {
    if k < |r| then r[k] as int - 0x80 else 0
  }

  /** The scalar value held by one encoded sequence. */
  function DecodeChar(r: Bytes): (n: int)
    requires 1 <= |r| <= 4
  {
    var b0, b1, b2, b3 := r[0] as int, Continuation(r, 1), Continuation(r, 2), Continuation(r, 3);
    if |r| == 1 then b0
    else if |r| == 2 then (b0 - 0xC0) * 0x40 + b1
    else if |r| == 3 then (b0 - 0xE0) * 0x1000 + b1 * 0x40 + b2
    else (b0 - 0xF0) * 0x4_0000 + b1 * 0x1000 + b2 * 0x40 + b3
  }

  lemma DecodeEncodeChar(c: char)
    ensures DecodeChar(EncodeChar(c)) == c as int
  {
    var n, r := c as int, EncodeChar(c);
    if n < 0x80 {
    } else if n < 0x800 {
      assert r == [0xC0 + n / 0x40, 0x80 + n % 0x40];
    } else if n < 0x1_0000 {
      assert r == [0xE0 + n / 0x1000, 0x80 + n / 0x40 % 0x40, 0x80 + n % 0x40];
      assert n / 0x40 == n / 0x1000 * 0x40 + n / 0x40 % 0x40;
    } else {
      assert r == [0xF0 + n / 0x4_0000, 0x80 + n / 0x1000 % 0x40, 0x80 + n / 0x40 % 0x40, 0x80 + n % 0x40];
      assert n / 0x1000 == n / 0x4_0000 * 0x40 + n / 0x1000 % 0x40;
      assert n / 0x40 == n / 0x1000 * 0x40 + n / 0x40 % 0x40;
    }
  }

  function Encode(s: string): (r: Bytes)
    ensures |s| <= |r| <= 4 * |s|
    decreases |s|
  {
    if |s| == 0 then [] else EncodeChar(s[0]) + Encode(s[1..])
  }

  /** Distinct passwords give distinct byte strings: the encoding loses nothing. */
  lemma {:induction false} EncodeInjective(s: string, t: string)
    requires Encode(s) == Encode(t)
    ensures s == t
    decreases |s|
  {
    if |s| > 0 {
      var e, a, b := Encode(s), EncodeChar(s[0]), EncodeChar(t[0]);
      assert e == a + Encode(s[1..]) && e == b + Encode(t[1..]);
      assert a[0] == e[0] == b[0];
      assert a == e[..|a|] == b;
      DecodeEncodeChar(s[0]);
      DecodeEncodeChar(t[0]);
      assert Encode(s[1..]) == e[|a|..] == Encode(t[1..]);
      EncodeInjective(s[1..], t[1..]);
      assert s == [s[0]] + s[1..] && t == [t[0]] + t[1..];
    }
  }

  /** Text in the ASCII range encodes to its code points, one byte each. */
  lemma {:induction false} EncodeAscii(s: string)
    requires forall k :: 0 <= k < |s| ==> s[k] as int < 0x80
    ensures |Encode(s)| == |s|
    ensures forall k :: 0 <= k < |s| ==> Encode(s)[k] == s[k] as int
    decreases |s|
  {
    if |s| > 0 {
      EncodeAscii(s[1..]);
      assert Encode(s) == [s[0] as int] + Encode(s[1..]);
    }
  }
}

=== FILE: wrappers.dfy ===
/** Option and Result values, used for the error paths of the model. */
module Wrappers {
  datatype Option<+T> = None | Some(value: T)

  datatype Result<+T, +E> = Ok(value: T) | Err(error: E)
}

/** Bytes as the Python `bytes` type holds them. */
module Octets {
  type byte = x: int | 0 <= x < 256

  type Bytes = seq<byte>

  /** `n` zero bytes. */
  function Zeros(n: nat): (r: Bytes)
    ensures |r| == n
  {
    seq(n, _ => 0)
  }
}
